=== FILE: README.md ===
# DermAI Coach — a verified model of its client-side logic

DermAI Coach is a wellness web front-end. A visitor describes a skin
complaint in text, adds a photo, or both. The app sends this to a
multimodal AI service and shows the structured reply. This project models
the logic under the presentation code in Dafny:

- **Request sanitiser** (`Sanitize`): HTML-like tags are stripped from the
  user's text and `<`/`>` are escaped. The placeholder replaces blank text.
  The result sits between the `[BEGIN_USER_DATA_BLOCK]` and
  `[END_USER_DATA_BLOCK]` marker lines of the prompt.
- **Reply clean-up** (`Reply`): the reply is trimmed and its code fences
  are removed. The text from the first `{` to the last `}` is sliced out,
  including JavaScript `substring`'s argument swap. If parsing fails, a
  fixed fallback is returned (fail-soft). Grounding citations become
  resources, de-duplicated by URL with JavaScript `Map` semantics.
- **Page router** (`App`): a two-way table between the ten pages and their
  paths. Navigation, back/forward traversal, the "start analysis" shortcut
  and the contact form's sent flag are pure transitions over explicit
  state.
- **Analysis form** (`Analyzer`): the form is a state machine over text,
  image, loading state, result and error message. Events are text edited,
  file read (or failed to read), image removed, submit, call succeeded and
  call failed.

Shared pieces: `Wrappers` (Option, Result), `Types` (the data model of
`types.ts`), and `Text`, the JavaScript string primitives the code uses.
`Text` covers `trim` with JavaScript's exact whitespace set, `indexOf`,
`lastIndexOf`, and `substring` with clamping and swapping.

The outbound AI call, `JSON.parse` and the browser are inputs to the
model: the call outcome arrives as an
event, the reply handler takes `parse` as a function parameter, and the
browser's history is explicit state.

## Model

| member | source | states |
|---|---|---|
| `Text.Trim` | services/geminiService.ts:105 | `trim` yields the empty string exactly when every character is JavaScript whitespace; otherwise the result neither starts nor ends with whitespace |
| `Text.TrimPeels` | services/geminiService.ts:105 | trimming removes only a whitespace prefix and a whitespace suffix: the input is the trimmed text with those put back |
| `Text.IndexOf` | services/geminiService.ts:108 | `indexOf` is -1 exactly when the character is absent; otherwise it is a position holding it with no earlier occurrence |
| `Text.LastIndexOf` | services/geminiService.ts:109 | `lastIndexOf` is -1 exactly when the character is absent; otherwise it is a position holding it with no later occurrence |
| `Text.Substring` | services/geminiService.ts:111 | `substring` with in-range ordered positions is the slice between them |
| `Text.SubstringSymmetric` | services/geminiService.ts:111 | `substring` gives the same text whichever order its two positions come in |
| `Sanitize.TagMatch` | services/geminiService.ts:58 | the tag pattern matches at a position exactly when a `<` is followed by a character other than `>`; the match runs to the first `>` inclusive, or to the end of the input |
| `Sanitize.SlashIsIrrelevant` | services/geminiService.ts:58 | whether the optional `/` is taken by `\/?` or by the class, the match ends at the same place |
| `Sanitize.StripTags` | services/geminiService.ts:58 | after global tag removal, no position of the text starts a match of the tag pattern, and the text is no longer |
| `Sanitize.StripTagsFixed` | services/geminiService.ts:58 | text in which the tag pattern matches nowhere is left unchanged by tag removal |
| `Sanitize.StripTagsIdempotent` | services/geminiService.ts:58 | removing tags a second time changes nothing |
| `Sanitize.StripTagsPlainPrefix` | services/geminiService.ts:58 | text before the first `<` is kept verbatim in front of the stripped rest |
| `Sanitize.StripTagsDropsTag` | services/geminiService.ts:58 | a complete tag `<t>` with non-empty `t` is deleted together with its contents, and stripping goes on after it |
| `Sanitize.StripTagsLoneOpen` | services/geminiService.ts:58 | a `<` followed by characters and no `>` starts a match that runs to the end, so everything from it on is deleted |
| `Sanitize.StripTagsKeepsEmptyPair` | services/geminiService.ts:58 | a `<` directly followed by `>` matches no tag (the class needs at least one non-`>` character), so the pair is kept and stripping continues after it |
| `Sanitize.ComparisonIsCut` | services/geminiService.ts:58 | the user text "x < 3" loses everything from its `<`: it comes out as "x " |
| `Sanitize.TagBetweenText` | services/geminiService.ts:58 | "a<b>c" comes out as "ac": the tag goes, the text on both sides stays |
| `Sanitize.ReplaceChar` | services/geminiService.ts:62 | global replacement of one character turns that character alone into the replacement and keeps any other single character; text without it is unchanged, and no occurrence survives when the replacement lacks it |
| `Sanitize.ReplaceCharConcat` | services/geminiService.ts:62 | replacing in a concatenation is replacing in each part, so with the single-character cases every occurrence becomes the replacement and all other characters stay in order |
| `Sanitize.Escape` | services/geminiService.ts:62 | `<` becomes `&lt;` and `>` becomes `&gt;`; after escaping no `<` or `>` remains, and text without them is unchanged |
| `Sanitize.EscapeConcat` | services/geminiService.ts:62 | escaping a concatenation is escaping each part, so every character is escaped on its own and kept in place |
| `Sanitize.CleanInput` | services/geminiService.ts:58-62 | the cleaned text contains no `<` and no `>`; text without angle brackets passes through unchanged |
| `Sanitize.CleanInputFixedIff` | services/geminiService.ts:58-62 | cleaning leaves a text unchanged if and only if it has no angle bracket |
| `Sanitize.CleanInputIdempotent` | services/geminiService.ts:58-62 | cleaning twice equals cleaning once |
| `Sanitize.UserContent` | services/geminiService.ts:64 | the data block is the fixed placeholder exactly when the cleaned text trims to empty, the cleaned text verbatim otherwise, and never blank |
| `Sanitize.PromptHead` | services/geminiService.ts:68-71 | the prompt opens with the begin-marker line and its data block closes with the end-marker line |
| `Sanitize.PromptSandwich` | services/geminiService.ts:64-71 | the text between the two marker lines has no angle bracket and is not blank; it is the user's own text when that is bracket-free and not blank |
| `Sanitize.EndMarkerPassesThrough` | services/geminiService.ts:60-71 | bracket-free user text holding the end marker passes sanitisation unchanged: escaping does not protect the square-bracket markers |
| `Reply.StripFences` | services/geminiService.ts:106 | a reply opening with `` ```json `` loses that fence and the whitespace after it, so what is left (if anything) starts with a non-whitespace character; a reply with neither fence is unchanged |
| `Reply.FencesPeel` | services/geminiService.ts:106 | fence stripping removes exactly a leading `` ```json `` with the whitespace after it (present if and only if the reply opens with that fence) and a trailing `` ``` `` (present if and only if what remains ends with one); neither holds a brace |
| `Reply.FencedPrimitive` | services/geminiService.ts:106 | the reply `` ```json 42``` `` reaches the parser as "42", a primitive, where the unstripped text would not parse |
| `Reply.SliceBraces` | services/geminiService.ts:108-112 | when the reply lacks a `{` or lacks a `}`, the string handed to the parser is the reply unchanged |
| `Reply.SliceBracesSpan` | services/geminiService.ts:108-112 | when a `{` precedes a later `}`, the extracted text is the contiguous slice from the first `{` to the last `}`, so it starts with `{` and ends with `}` |
| `Reply.SliceBracesSwapped` | services/geminiService.ts:108-112 | when every `}` precedes every `{`, `substring` swaps its arguments and the extracted text lies strictly between the last `}` and the first `{`, with no brace |
| `Reply.SliceBracesFrame` | services/geminiService.ts:108-112 | brace-free text added on either side of a reply does not change the extracted slice |
| `Reply.CleanReply` | services/geminiService.ts:105-112 | the string handed to the parser is no longer than the reply, and whenever it holds both braces it opens with `{` and closes with `}` |
| `Reply.SliceBracesBracketed` | services/geminiService.ts:108-112 | a slice holding both braces opens with `{` and closes with `}`; the swapped case never yields a brace |
| `Reply.SliceOfObject` | services/geminiService.ts:108-112 | text that opens with `{` and closes with `}` is its own slice |
| `Reply.CleanReplyIsSlice` | services/geminiService.ts:105-112 | trimming and fence stripping never remove a brace: for a reply holding both braces, the full clean-up equals slicing the raw reply |
| `Reply.ObjectInProse` | services/geminiService.ts:105-112 | an object surrounded by brace-free prose, code fences included, is recovered exactly |
| `Reply.FencedObject` | services/geminiService.ts:105-112 | a reply of `` ```json ``, newline, object, newline, `` ``` `` is handed to the parser as the bare object |
| `Reply.ResourcesOf` | services/geminiService.ts:131-141 | every collected resource comes from a chunk with a web entry, and every such chunk contributes its title and URL |
| `Reply.ResourcesOfConcat` | services/geminiService.ts:134-141 | resources are collected chunk by chunk in order: those of a concatenation are those of its parts, in sequence |
| `Reply.Put` | services/geminiService.ts:143 | `Map.set` on an insertion-ordered map: the key set gains the URL; a present key keeps its place and takes the new value; a new key is appended; distinct keys stay distinct |
| `Reply.Dedup` | services/geminiService.ts:143 | the de-duplicated list has pairwise distinct URLs, and its URLs are exactly those of the input |
| `Reply.DedupKeepsLast` | services/geminiService.ts:143 | each kept entry equals the last input resource with that URL |
| `Reply.DedupFirstOrder` | services/geminiService.ts:143 | kept entries appear in the order of each URL's first appearance in the input |
| `Reply.DedupExample` | services/geminiService.ts:143 | citations a:X, a:Y, b:Z de-duplicate to a:Y, b:Z |
| `Reply.DedupLaterWins` | services/geminiService.ts:143 | for any x, y sharing a URL and z with another URL, x, y, z de-duplicate to y, z: the later duplicate replaces the earlier one in its place |
| `Reply.FallbackContent` | services/geminiService.ts:120-127 | the fail-soft reply fills every text field, carries the source's two suggestions, and an empty, present list of resources |
| `Reply.TrustedResources` | services/geminiService.ts:131-144 | the attached resources have distinct URLs, exactly the URLs of chunks with a web entry, and none when grounding metadata is absent |
| `Reply.HandleReply` | services/geminiService.ts:100-146 | an absent or empty reply throws; an unparsable reply yields the fixed fallback with an empty resource list; a parsed primitive throws; a parsed object keeps its fields and always gets `trustedResources`, distinct by URL and covering every cited URL |
| `App.PageFromPath` | App.tsx:44-57 | a path resolves to the home page exactly when it is not one of the nine named paths, "/" included |
| `App.PathFromPage` | App.tsx:59-73 | every page maps to one of the ten canonical paths, and only the home page maps to "/" |
| `App.PageRoundTrip` | App.tsx:44-73 | `getPageFromPath(getPathFromPage(p)) == p` for all ten pages |
| `App.PathInjective` | App.tsx:59-73 | distinct pages have distinct paths |
| `App.PathRoundTrip` | App.tsx:44-73 | page then path gives back a canonical path unchanged, and "/" for every other path |
| `App.Load` | App.tsx:81-82 | after the mount effect, the page shown is derived from the current pathname |
| `App.Navigate` | App.tsx:88-93 | navigation pushes the page's path after the current entry, shows the page, and the page equals the one derived from the newest entry |
| `App.Traverse` | App.tsx:77-79 | on back/forward (a non-zero `delta`) to an existing entry, `popstate` re-derives the page from the new pathname; when the target entry does not exist nothing changes |
| `App.Reload` | App.tsx:81-82 | `history.go(0)` reloads: the history is kept, the contact form starts idle, and the mount effect derives the page from the pathname |
| `App.ScrollToAnalyzer` | App.tsx:88-115 | afterwards the page is HOME whatever the starting page; from another page it pushes "/" after the current entry as navigation does; when already home nothing changes; the contact form is never touched |
| `App.SubmitContactForm` | App.tsx:96-98 | submitting the contact form marks it sent, which disables the send button |
| `App.ContactTimer` | App.tsx:99-101 | the timer returns the form to idle, which enables the send button again |
| `App.ContactCycle` | App.tsx:96-101 | a submission disables the send button of App.tsx:465, its timer returns the form to idle and so enables the button again, and a second cycle behaves as the first |
| `App.Step` | App.tsx:75-115 | every shell event keeps the page in step with the address bar, and navigation, traversal and the shortcut leave the contact form alone |
| `App.Run` | App.tsx:75-115 | through any run without contact events or reloads, the contact form keeps its state |
| `App.RunStaysInSync` | App.tsx:75-115 | after any sequence of navigations, traversals, shortcuts and contact events, the page shown is the page of the current pathname |
| `Analyzer.FileChange` | components/SkinAnalyzer.tsx:17-27 | once a chosen file's read ends, the image becomes its outcome (none when the read failed) and the result is cleared, nothing else changing; closing the picker without a file changes nothing |
| `Analyzer.SubmitDisabled` | components/SkinAnalyzer.tsx:191 | in a reachable state the submit button is disabled exactly while a call is awaited |
| `Analyzer.ResultVisible` | components/SkinAnalyzer.tsx:227 | in a reachable state the results panel never shows while a call is awaited |
| `Analyzer.RemoveImage` | components/SkinAnalyzer.tsx:29-34 | removing the image clears only the image; text, result and loading state are untouched |
| `Analyzer.HandleSubmit` | components/SkinAnalyzer.tsx:36-44 | with blank text and no image, only the validation message is set and no call is issued; otherwise one call with the current text and image is issued, and the form moves to ANALYZING with error and result cleared |
| `Analyzer.CallSucceeded` | components/SkinAnalyzer.tsx:47-49 | a successful call stores the data as the result and moves to SUCCESS, so the result shows |
| `Analyzer.CallFailed` | components/SkinAnalyzer.tsx:50-53 | a failed call moves to ERROR with the fixed failure message, and no result shows |
| `Analyzer.Step` | components/SkinAnalyzer.tsx:17-191 | a click on submit does nothing while ANALYZING (the disabled button of line 191) and runs the handler otherwise; an outcome of the awaited call only settles it as success or failure (lines 46-53, no retry); editing the text or the image changes neither the loading state nor the awaited calls |
| `Analyzer.Run` | components/SkinAnalyzer.tsx:36-54 | without a click on submit, the number of awaited calls never grows along any run of events |
| `Analyzer.StepKeepsInv` | components/SkinAnalyzer.tsx:36-54 | every event keeps the invariant: at most one awaited call, awaited exactly while ANALYZING, and a result held only in SUCCESS |
| `Analyzer.RunKeepsInv` | components/SkinAnalyzer.tsx:36-54 | any sequence of events keeps that invariant |
| `Analyzer.AtMostOneCall` | components/SkinAnalyzer.tsx:189-191 | from the initial form, at most one call is ever in flight, and one is in flight exactly while submit is disabled |
| `Analyzer.FailureLeavesNoResult` | components/SkinAnalyzer.tsx:42-53 | in a reachable state, a failed call leaves the result empty |
| `Analyzer.VisibleIffResult` | components/SkinAnalyzer.tsx:227 | in a reachable state, the results panel shows exactly when a result is held |
| `Analyzer.UnguardedHandlerCallsTwice` | components/SkinAnalyzer.tsx:36-44 | the handler by itself issues a second call while the first is pending; only the button guard prevents it |
| `Analyzer.FailedReadDropsPhoto` | components/SkinAnalyzer.tsx:17-40 | a photo whose read fails leaves no image and no result; with blank text the next submission is rejected with the validation message |
| `Analyzer.NewPhotoHidesResult` | components/SkinAnalyzer.tsx:227 | after a successful analysis, choosing a new photo hides the result while the loading state still reads SUCCESS |

## Left out

- The call to the AI service (services/geminiService.ts:51-52, 91-98): a network client in a foreign library. Its outcome is the `Succeeded`/`Failed` event of the form. The system instruction and the prompt's instruction block after the end marker (services/geminiService.ts:4-44, 72-76) are prose whose effect depends on that service.
- `JSON.parse` (services/geminiService.ts:116) is a library. It is the function parameter `parse`, returning a syntax error, a primitive or an object read as the response shape. Nothing checks the shape, because the source only casts it; an object lacking fields is still an "object" here.
- Logging (`console.error`) and the catch-and-rethrow (services/geminiService.ts:118, 148-151): the rethrow only passes the error on, so it becomes the `Err` result.
- Base64 data-URL splitting and `FileReader` (services/geminiService.ts:81-89, components/SkinAnalyzer.tsx:18-25) are browser I/O. The image is the data URL as read, and the service attaches it when it is truthy.
- DOM effects are not modelled: scrolling (App.tsx:92, 108-113; components/SkinAnalyzer.tsx:56-60) and clearing the file input (components/SkinAnalyzer.tsx:31-33). The 3000 ms contact timer (App.tsx:99-101) becomes the `TimerFired` event; the 100 ms delay (App.tsx:108) only delays the scroll and is dropped with it.
- The component's initial render before the mount effect runs (App.tsx:39, 81-82) is not modelled. During it the page is HOME whatever the pathname, and `App.Load` starts after the effect.
- `Analyzer.AtMostOneCall` holds for one mounted form. The analysis form is mounted only on the home page (App.tsx:119-186). Leaving home while a call is awaited unmounts it with the call still pending, and coming back mounts a fresh, idle form whose submit button is enabled, so a second call can go out while the first is outstanding. Mounting and unmounting are not modelled, and the `App` and `Analyzer` state machines are not composed.
- `Analyzer.State.inFlight` is not a field of the component. It counts the submissions awaiting their call, so that the one-call-in-flight property can be stated.
- Strings are sequences of Unicode scalar values, not UTF-16 code units. Every character the operations inspect is in the Basic Multilingual Plane, so nothing changes for them.
- Rendering is not modelled: components/AnalysisDisplay.tsx, Header.tsx, Footer.tsx, Hero.tsx and Testimonials.tsx draw the views, and AnalysisDisplay also relies on the `URL` library for host names. vite.config.ts is build tooling and environment injection.
- `history.go` with a `delta` of zero reloads the document; `App.Reload` models only the effect visible to the shell: its state starts afresh and the mount effect runs again.
- Behaviour that is easy to misread, modelled as the code has it. Only a leading `` ```json `` fence is stripped, never a bare `` ``` ``. The fallback reply carries two suggestions rather than none. While mounted, the form never returns to IDLE after its first accepted submission; a blank submission is rejected and leaves it IDLE. An unknown path keeps its own history entry and only shows the home page.

=== FILE: analyzer.dfy ===
/** The analysis form (components/SkinAnalyzer.tsx) as a state machine.
    The outbound call itself is not modelled: submitting issues a request,
    and the call's outcome arrives later as an event of its own. */
module Analyzer {
  import opened Wrappers
  import opened Types
  import opened Text

  /** The form's state. `inFlight` is not a field of the component: it
      counts the submissions still awaiting their call, so that the
      one-call-at-a-time property can be stated. */
  datatype State = State(
    text: string,
    image: Option<string>,
    loading: LoadingState,
    result: Option<WellnessResponse>,
    error: Option<string>,
    inFlight: nat)

  const Initial: State := State("", None, Idle, None, None, 0)

  const ValidationMessage: string := "Please provide an image or describe your symptoms."
  const FailureMessage: string := "Unable to analyze. Please check your connection and try again."

  /** The arguments handed to the analysis service. */
  datatype Request = Request(text: string, image: Option<string>)

  /** What a submission leaves behind: the new state and the call it
      issued, if any. */
  datatype Submission = Submission(state: State, call: Option<Request>)

  /** The form holds something to analyse: non-blank text or an image. */
  predicate HasInput(s: State) {
    Trim(s.text) != [] || Truthy(s.image)
  }

  /** The submit button's `disabled` condition. In a reachable state it
      holds exactly while a call is awaited. */
  predicate SubmitDisabled(s: State)
    ensures Inv(s) ==> (SubmitDisabled(s) <==> s.inFlight == 1)
  {
    s.loading == Analyzing
  }

  /** The results panel's display condition. In a reachable state the panel
      never shows while a call is awaited. */
  predicate ResultVisible(s: State)
    ensures Inv(s) && s.inFlight == 1 ==> !ResultVisible(s)
  {
    s.result.Some? && s.loading == Success
  }

  /** What the file input delivers: no file (the picker closed), or the
      outcome of reading the chosen file as `onloadend` sees it, with
      `reader.result` None when the read failed. */
  datatype Pick = NoFile | Loaded(data: Option<string>)

  /** `handleFileChange` with its `onloadend` callback: once a chosen file's
      read ends, its outcome becomes the image (none when the read failed)
      and the result is cleared; without a file nothing changes. */
  function FileChange(s: State, pick: Pick): (r: State)
    ensures pick.Loaded? ==> r.image == pick.data && r.result.None?
    ensures pick.Loaded? ==> r.(image := s.image, result := s.result) == s
    ensures pick.NoFile? ==> r == s
  {
    match pick
    case NoFile => s
    case Loaded(data) => s.(image := data, result := None)
  }

  /** `handleRemoveImage`: the image goes, nothing else changes. */
  function RemoveImage(s: State): (r: State)
    ensures r.image.None?
    ensures r.(image := s.image) == s
  {
    s.(image := None)
  }

  /** `handleSubmit` up to the awaited call. It does not look at the loading
      state itself; only the disabled button keeps it from running twice. */
  function HandleSubmit(s: State): (r: Submission)
    ensures !HasInput(s) ==> r.call.None? && r.state.error == Some(ValidationMessage)
    ensures !HasInput(s) ==> r.state.(error := s.error) == s
    ensures HasInput(s) ==> r.call == Some(Request(s.text, s.image))
    ensures HasInput(s) ==>
      && r.state.loading == Analyzing && r.state.error.None? && r.state.result.None?
      && r.state.text == s.text && r.state.image == s.image
      && r.state.inFlight == s.inFlight + 1
  {
    if !HasInput(s) then Submission(s.(error := Some(ValidationMessage)), None)
    else
      var t := s.(loading := Analyzing, error := None, result := None, inFlight := s.inFlight + 1);
      Submission(t, Some(Request(s.text, s.image)))
  }

  /** The awaited call returned `data`. */
  function CallSucceeded(s: State, data: WellnessResponse): (r: State)
    requires s.inFlight > 0
    ensures r.result == Some(data) && r.loading == Success && ResultVisible(r)
    ensures r.inFlight == s.inFlight - 1
    ensures r.text == s.text && r.image == s.image && r.error == s.error
  {
    s.(result := Some(data), loading := Success, inFlight := s.inFlight - 1)
  }

  /** The awaited call threw. */
  function CallFailed(s: State): (r: State)
    requires s.inFlight > 0
    ensures r.loading == Error && r.error == Some(FailureMessage) && !ResultVisible(r)
    ensures r.inFlight == s.inFlight - 1
    ensures r.text == s.text && r.image == s.image && r.result == s.result
  {
    s.(loading := Error, error := Some(FailureMessage), inFlight := s.inFlight - 1)
  }

  datatype Event =
    | TextChanged(text: string)
    | FileChosen(pick: Pick)
    | ImageRemoved
    | SubmitClicked
    | Succeeded(data: WellnessResponse)
    | Failed

  /** One event as the page delivers it: a click on the disabled button does
      nothing, and an outcome arrives only for a call that is awaited. Only
      a click issues a call: an outcome just finishes the awaited one, and
      editing the form leaves the loading state and the awaited calls alone. */
  function Step(s: State, e: Event): (r: State)
    ensures e.SubmitClicked? && SubmitDisabled(s) ==> r == s
    ensures e.SubmitClicked? && !SubmitDisabled(s) ==> r == HandleSubmit(s).state
    ensures (e.Succeeded? || e.Failed?) && s.inFlight == 0 ==> r == s
    ensures e.Succeeded? && s.inFlight > 0 ==> r == CallSucceeded(s, e.data)
    ensures e.Failed? && s.inFlight > 0 ==> r == CallFailed(s)
    ensures e.TextChanged? || e.FileChosen? || e.ImageRemoved? ==> r.inFlight == s.inFlight && r.loading == s.loading
  {
    match e
    case TextChanged(t) => s.(text := t)
    case FileChosen(f) => FileChange(s, f)
    case ImageRemoved => RemoveImage(s)
    case SubmitClicked => if SubmitDisabled(s) then s else HandleSubmit(s).state
    case Succeeded(d) => if s.inFlight == 0 then s else CallSucceeded(s, d)
    case Failed => if s.inFlight == 0 then s else CallFailed(s)
  }

  /** A sequence of form events. No call is issued without a click on
      submit: without one, the number of awaited calls never grows. */
  function Run(s: State, events: seq<Event>): (r: State)
    ensures (forall i :: 0 <= i < |events| ==> !events[i].SubmitClicked?) ==> r.inFlight <= s.inFlight
    decreases |events|
  {
    if |events| == 0 then s else Run(Step(s, events[0]), events[1..])
  }

  /** The invariant of the form: at most one call awaited, exactly while
      analysing, and a result held only after a successful call. */
  predicate Inv(s: State) {
    && s.inFlight <= 1
    && (s.inFlight == 1 <==> s.loading == Analyzing)
    && (s.result.Some? ==> s.loading == Success)
  }

  lemma StepKeepsInv(s: State, e: Event)
    requires Inv(s)
    ensures Inv(Step(s, e))
  {
  }

  lemma {:induction false} RunKeepsInv(s: State, events: seq<Event>)
    requires Inv(s)
    ensures Inv(Run(s, events))
    decreases |events|
  {
    if |events| > 0 {
      StepKeepsInv(s, events[0]);
      RunKeepsInv(Step(s, events[0]), events[1..]);
    }
  }

  /** Whatever the user does, at most one analysis call is awaited at any
      time, and one is awaited exactly while the submit button is disabled. */
  lemma AtMostOneCall(events: seq<Event>)
    ensures Run(Initial, events).inFlight <= 1
    ensures Run(Initial, events).inFlight == 1 <==> SubmitDisabled(Run(Initial, events))
  {
    RunKeepsInv(Initial, events);
  }

  /** A failed call leaves no result behind, because the submission that
      issued it cleared the result and nothing sets one while analysing. */
  lemma FailureLeavesNoResult(s: State)
    requires Inv(s) && s.inFlight > 0
    ensures Step(s, Failed).result.None?
  {
  }

  /** In a reachable state the results panel shows exactly when a result is
      held. */
  lemma VisibleIffResult(s: State)
    requires Inv(s)
    ensures ResultVisible(s) <==> s.result.Some?
  {
  }

  /** The handler alone does not prevent a second call: submitting again
      while the first call is awaited issues another one. */
  lemma UnguardedHandlerCallsTwice()
    ensures var first := HandleSubmit(Initial.(text := "itchy")).state;
      && first.loading == Analyzing
      && HandleSubmit(first).call.Some?
      && HandleSubmit(first).state.inFlight == 2
  {
    var s := Initial.(text := "itchy");
    assert s.text[0] == 'i';
    assert HasInput(s);
  }

  /** A photo whose read fails replaces the previous photo with nothing and
      clears the result; with blank text, the next submission is then
      rejected with the validation message. */
  lemma FailedReadDropsPhoto(s: State)
    requires Trim(s.text) == []
    ensures var t := Step(s, FileChosen(Loaded(None)));
      && t.image.None? && t.result.None?
      && HandleSubmit(t).call.None?
      && HandleSubmit(t).state.error == Some(ValidationMessage)
  {
  }

  /** A new photo after a successful analysis hides the result while the
      loading state still reads SUCCESS: the panel needs both conditions. */
  lemma NewPhotoHidesResult(text: string, data: WellnessResponse, photo: string)
    requires Trim(text) != []
    ensures var done := CallSucceeded(HandleSubmit(Initial.(text := text)).state, data);
      && ResultVisible(done)
      && Step(done, FileChosen(Loaded(Some(photo)))).loading == Success
      && !ResultVisible(Step(done, FileChosen(Loaded(Some(photo)))))
  {
  }
}

=== FILE: app.dfy ===
/** The application shell (App.tsx): the two-way table between URL paths
    and pages, the page state kept in step with the browser history, the
    "start analysis" shortcut and the contact form's sent flag. */
module App {
  import opened Types

  /** The paths of every page but the home page. */
  const NamedPaths: set<string> := {
    "/about", "/features", "/privacy", "/terms", "/contact",
    "/testimonials", "/cookie-policy", "/disclaimer", "/how-it-works"}

  /** All ten canonical paths. */
  const CanonicalPaths: set<string> := NamedPaths + {"/"}

  /** `getPageFromPath`: any path outside the nine named ones, "/" among
      them, shows the home page. */
  function PageFromPath(path: string): (p: Page)
    ensures p == Home <==> path !in NamedPaths
  {
    if path == "/about" then About
    else if path == "/features" then Features
    else if path == "/privacy" then Privacy
    else if path == "/terms" then Terms
    else if path == "/contact" then Contact
    else if path == "/testimonials" then Testimonials
    else if path == "/cookie-policy" then CookiePolicy
    else if path == "/disclaimer" then Disclaimer
    else if path == "/how-it-works" then HowItWorks
    else Home
  }

  /** `getPathFromPage`. */
  function PathFromPage(p: Page): (path: string)
    ensures path in CanonicalPaths
    ensures path == "/" <==> p == Home
  {
    match p
    case Home => "/"
    case About => "/about"
    case Features => "/features"
    case Privacy => "/privacy"
    case Terms => "/terms"
    case Contact => "/contact"
    case Testimonials => "/testimonials"
    case CookiePolicy => "/cookie-policy"
    case Disclaimer => "/disclaimer"
    case HowItWorks => "/how-it-works"
  }

  /** Every page survives the trip to its path and back. */
  lemma PageRoundTrip(p: Page)
    ensures PageFromPath(PathFromPage(p)) == p
  {
  }

  /** Distinct pages have distinct paths. */
  lemma PathInjective(p: Page, q: Page)
    ensures PathFromPage(p) == PathFromPage(q) ==> p == q
  {
    PageRoundTrip(p);
    PageRoundTrip(q);
  }

  /** A path survives the trip to its page and back exactly when it is
      canonical; any other path comes back as "/". */
  lemma PathRoundTrip(path: string)
    ensures PathFromPage(PageFromPath(path)) == if path in CanonicalPaths then path else "/"
  {
  }

  /** The browser's session history: its entries and the current one.
      `pushState` drops the entries after the current one, as browsers do. */
  datatype History = History(entries: seq<string>, index: nat) {
    predicate Valid() {
      index < |entries|
    }

    /** `window.location.pathname`. */
    function Pathname(): string
      requires Valid()
    {
      entries[index]
    }
  }

  datatype ContactStatus = ContactIdle | ContactSent

  datatype AppState = AppState(page: Page, history: History, contact: ContactStatus)

  /** The page shown is the page of the address bar. */
  predicate InSync(s: AppState) {
    s.history.Valid() && s.page == PageFromPath(s.history.Pathname())
  }

  /** The state once the mount effect has run: one history entry, and the
      page derived from it. */
  function Load(pathname: string): (s: AppState)
    ensures InSync(s)
    ensures s.history.Pathname() == pathname && s.contact == ContactIdle
  {
    AppState(PageFromPath(pathname), History([pathname], 0), ContactIdle)
  }

  /** `handleNavigate`: push the page's path, then show the page. */
  function Navigate(s: AppState, p: Page): (r: AppState)
    requires s.history.Valid()
    ensures InSync(r) && r.page == p
    ensures r.history.entries == s.history.entries[..s.history.index + 1] + [PathFromPage(p)]
    ensures r.history.index == s.history.index + 1
    ensures r.contact == s.contact
  {
    var h := s.history;
    var entries := h.entries[..h.index + 1] + [PathFromPage(p)];
    PageRoundTrip(p);
    s.(page := p, history := History(entries, h.index + 1))
  }

  /** The browser's back and forward buttons (`history.go(delta)` with a
      non-zero `delta`): when the target entry exists it becomes current and
      `popstate` re-derives the page from the new pathname; otherwise
      nothing happens. */
  function Traverse(s: AppState, delta: int): (r: AppState)
    requires s.history.Valid() && delta != 0
    ensures InSync(r) || r == s
    ensures r.history.entries == s.history.entries && r.contact == s.contact
    ensures r.history.Valid()
    ensures 0 <= s.history.index + delta < |s.history.entries| ==>
      r.history.index == s.history.index + delta && InSync(r)
    ensures !(0 <= s.history.index + delta < |s.history.entries|) ==> r == s
  {
    var target := s.history.index + delta;
    if 0 <= target < |s.history.entries| then
      var h := s.history.(index := target);
      s.(page := PageFromPath(h.Pathname()), history := h)
    else s
  }

  /** `history.go(0)` reloads the document: the history is kept, the shell
      mounts afresh, and its mount effect derives the page from the
      pathname. */
  function Reload(s: AppState): (r: AppState)
    requires s.history.Valid()
    ensures InSync(r)
    ensures r.history == s.history && r.contact == ContactIdle
  {
    s.(page := PageFromPath(s.history.Pathname()), contact := ContactIdle)
  }

  /** `scrollToAnalyzer`: leave for the home page unless already there (the
      scrolling itself is not modelled). */
  function ScrollToAnalyzer(s: AppState): (r: AppState)
    requires s.history.Valid()
    ensures r.page == Home
    ensures s.page == Home ==> r == s
    ensures s.page != Home ==>
      && r.history.entries == s.history.entries[..s.history.index + 1] + ["/"]
      && r.history.index == s.history.index + 1
    ensures r.contact == s.contact
    ensures InSync(s) ==> InSync(r)
  {
    if s.page != Home then Navigate(s, Home) else s
  }

  /** Every event of the shell. */
  datatype Event = Go(page: Page) | Traversed(delta: int) | StartAnalysis | SubmitContact | TimerFired

  /** `handleContactSubmit`: the form shows as sent. */
  function SubmitContactForm(c: ContactStatus): (r: ContactStatus)
    ensures SendDisabled(r)
  {
    ContactSent
  }

  /** The timer armed by a submission puts the form back to idle. */
  function ContactTimer(c: ContactStatus): (r: ContactStatus)
    ensures !SendDisabled(r)
  {
    ContactIdle
  }

  /** The send button's `disabled` condition. */
  predicate SendDisabled(c: ContactStatus) {
    c == ContactSent
  }

  /** A submission and its timer make one full cycle of the contact form:
      from any state, the button is disabled after the submission and
      enabled again once the timer fires, and a second cycle behaves
      exactly like the first. */
  lemma ContactCycle(c: ContactStatus)
    ensures SendDisabled(SubmitContactForm(c))
    ensures ContactTimer(SubmitContactForm(c)) == ContactIdle
    ensures SubmitContactForm(ContactTimer(SubmitContactForm(c))) == SubmitContactForm(c)
  {
  }

  /** One event of the shell: a navigation, a traversal (a zero `delta`
      reloads), the analysis shortcut, or a contact-form event. Every event
      keeps the page in step with the address bar, and only the contact
      events touch the contact form. */
  function Step(s: AppState, e: Event): (r: AppState)
    requires s.history.Valid()
    ensures r.history.Valid()
    ensures InSync(s) ==> InSync(r)
    ensures (e.Go? || e.StartAnalysis? || (e.Traversed? && e.delta != 0)) ==> r.contact == s.contact
  {
    match e
    case Go(p) => Navigate(s, p)
    case Traversed(d) => if d == 0 then Reload(s) else Traverse(s, d)
    case StartAnalysis => ScrollToAnalyzer(s)
    case SubmitContact => s.(contact := SubmitContactForm(s.contact))
    case TimerFired => s.(contact := ContactTimer(s.contact))
  }

  /** A sequence of shell events. The contact form keeps its state through
      any run without contact events or reloads. */
  function Run(s: AppState, events: seq<Event>): (r: AppState)
    requires s.history.Valid()
    ensures r.history.Valid()
    ensures (forall i :: 0 <= i < |events| ==>
      events[i].Go? || events[i].StartAnalysis? || (events[i].Traversed? && events[i].delta != 0)) ==>
      r.contact == s.contact
    decreases |events|
  {
    if |events| == 0 then s else Run(Step(s, events[0]), events[1..])
  }

  /** Whatever the user and the browser do after the page loads, the page
      shown stays the page of the current pathname. */
  lemma {:induction false} RunStaysInSync(s: AppState, events: seq<Event>)
    requires InSync(s)
    ensures InSync(Run(s, events))
    decreases |events|
  {
    if |events| > 0 {
      RunStaysInSync(Step(s, events[0]), events[1..]);
    }
  }
}

=== FILE: reply.dfy ===
/** The response side of the analysis service (services/geminiService.ts):
    recovering the JSON object from the model's raw reply, the fail-soft
    fallback, and the cited web resources read from grounding metadata. */
module Reply {
  import opened Wrappers
  import opened Types
  import opened Text

  const OpenFence: string := "```json"
  const CloseFence: string := "```"

  predicate NoBraces(s: string) {
    '{' !in s && '}' !in s
  }

  predicate HasBraces(s: string) {
    '{' in s && '}' in s
  }

  lemma WhitespaceHasNoBraces(s: string)
    requires AllWhitespace(s)
    ensures NoBraces(s)
  {
    assert forall i :: 0 <= i < |s| ==> s[i] != '{' && s[i] != '}';
  }

  /** `replace(/^```json\s*\/, "")`: an opening fence, and the whitespace
      after it, removed only at the very start. */
  function StripOpenFence(s: string): string {
    if StartsWith(s, OpenFence) then TrimStart(s[|OpenFence|..]) else s
  }

  /** `replace(/```$/, "")`: a closing fence removed only at the very end. */
  function StripCloseFence(s: string): string {
    if EndsWith(s, CloseFence) then s[..|s| - |CloseFence|] else s
  }

  /** Both fence removals, in the order the source applies them. */
  function StripFences(s: string): (r: string)
    ensures |r| <= |s|
    ensures !StartsWith(s, OpenFence) && !EndsWith(s, CloseFence) ==> r == s
    ensures StartsWith(s, OpenFence) ==> |r| <= |s| - |OpenFence|
    ensures StartsWith(s, OpenFence) && |r| > 0 ==> !IsWhitespace(r[0])
  {
    var a := StripOpenFence(s);
    var r := StripCloseFence(a);
    assert |r| > 0 ==> r[0] == a[0];
    r
  }

  lemma FencesHaveNoBraces()
    ensures NoBraces(OpenFence) && NoBraces(CloseFence)
  {
    assert forall i :: 0 <= i < |OpenFence| ==> OpenFence[i] != '{' && OpenFence[i] != '}';
    assert forall i :: 0 <= i < |CloseFence| ==> CloseFence[i] == '`';
  }

  lemma OpenFencePeel(s: string) returns (pre: string)
    ensures s == pre + StripOpenFence(s)
    ensures pre == [] || (StartsWith(pre, OpenFence) && AllWhitespace(pre[|OpenFence|..]))
    ensures StartsWith(s, OpenFence) <==> pre != []
    ensures NoBraces(pre)
  {
    if StartsWith(s, OpenFence) {
      var rest := s[|OpenFence|..];
      var a := TrimStart(rest);
      var ws := rest[..|rest| - |a|];
      assert s == OpenFence + rest;
      pre := OpenFence + ws;
      PeelBoth(s, OpenFence, rest, ws, a);
      PrefixOfConcat(OpenFence, ws);
      WhitespaceHasNoBraces(ws);
      FencesHaveNoBraces();
    } else {
      pre := [];
    }
  }

  lemma CloseFencePeel(a: string) returns (post: string)
    ensures a == StripCloseFence(a) + post
    ensures post == [] || post == CloseFence
    ensures EndsWith(a, CloseFence) <==> post == CloseFence
    ensures NoBraces(post)
  {
    FencesHaveNoBraces();
    if EndsWith(a, CloseFence) {
      post := CloseFence;
      assert a == a[..|a| - |CloseFence|] + post;
    } else {
      post := [];
    }
  }

  /** Fence stripping removes an opening fence with the whitespace after it
      and a closing fence, and nothing else; in particular no brace. */
  lemma FencesPeel(s: string) returns (pre: string, post: string)
    ensures s == pre + StripFences(s) + post
    ensures pre == [] || (StartsWith(pre, OpenFence) && AllWhitespace(pre[|OpenFence|..]))
    ensures post == [] || post == CloseFence
    ensures StartsWith(s, OpenFence) <==> pre != []
    ensures EndsWith(StripOpenFence(s), CloseFence) <==> post == CloseFence
    ensures NoBraces(pre) && NoBraces(post)
  {
    pre := OpenFencePeel(s);
    var a := StripOpenFence(s);
    post := CloseFencePeel(a);
    PeelBoth(s, pre, a, StripCloseFence(a), post);
  }

  lemma PrefixOfConcat(a: string, b: string)
    ensures StartsWith(a + b, a) && (a + b)[|a|..] == b
  {
    assert (a + b)[..|a|] == a;
  }

  lemma PeelBoth(s: string, pre: string, a: string, r: string, post: string)
    requires s == pre + a && a == r + post
    ensures s == pre + r + post
  {
  }

  /** A fenced primitive reaches the parser bare: "```json 42```" becomes
      "42", which parses to a number, where the unstripped reply would not
      have parsed at all. */
  lemma FencedPrimitive()
    ensures StripFences("```json 42```") == "42"
  {
    var s := "```json 42```";
    assert StartsWith(s, OpenFence);
    assert s[|OpenFence|..] == " 42```";
    assert IsWhitespace(' ') && !IsWhitespace('4');
    assert TrimStart(" 42```") == "42```";
    assert EndsWith("42```", CloseFence);
  }

  /** `s.substring(s.indexOf('{'), s.lastIndexOf('}') + 1)` when both braces
      occur, `s` unchanged otherwise. */
  function SliceBraces(s: string): (r: string)
    ensures !HasBraces(s) ==> r == s
    ensures |r| <= |s|
  {
    var first := IndexOf(s, '{');
    var last := LastIndexOf(s, '}');
    if first != -1 && last != -1 then Substring(s, first, last + 1) else s
  }

  /** When some '{' comes before some '}', the slice runs from the first '{'
      to the last '}', both included. */
  lemma SliceBracesSpan(s: string) returns (i: nat, j: nat)
    requires exists a, b :: 0 <= a < b < |s| && s[a] == '{' && s[b] == '}'
    ensures i < j < |s| && s[i] == '{' && s[j] == '}'
    ensures forall k :: 0 <= k < i ==> s[k] != '{'
    ensures forall k :: j < k < |s| ==> s[k] != '}'
    ensures SliceBraces(s) == s[i..j + 1]
  {
    var a, b :| 0 <= a < b < |s| && s[a] == '{' && s[b] == '}';
    i := IndexOf(s, '{');
    j := LastIndexOf(s, '}');
  }

  /** When every '}' comes before every '{', `substring` swaps its two
      positions: the slice is the text strictly between the last '}' and the
      first '{', and holds no brace at all. */
  lemma SliceBracesSwapped(s: string) returns (i: nat, j: nat)
    requires HasBraces(s)
    requires forall a, b :: 0 <= a < b < |s| && s[a] == '{' ==> s[b] != '}'
    ensures 0 < i <= j < |s| && s[i - 1] == '}' && s[j] == '{'
    ensures SliceBraces(s) == s[i..j]
    ensures NoBraces(SliceBraces(s))
  {
    var first := IndexOf(s, '{');
    var last := LastIndexOf(s, '}');
    assert last < first;
    i := last + 1;
    j := first;
    var r := s[i..j];
    assert forall k :: 0 <= k < |r| ==> r[k] == s[i + k];
  }

  lemma IndexOfUnique(s: string, c: char, k: nat)
    requires k < |s| && s[k] == c
    requires forall r :: 0 <= r < k ==> s[r] != c
    ensures IndexOf(s, c) == k
  {
  }

  lemma LastIndexOfUnique(s: string, c: char, k: nat)
    requires k < |s| && s[k] == c
    requires forall r :: k < r < |s| ==> s[r] != c
    ensures LastIndexOf(s, c) == k
  {
  }

  lemma IndexOfShift(p: string, y: string, q: string, c: char)
    requires c !in p && c in y
    ensures IndexOf(p + y + q, c) == |p| + IndexOf(y, c)
  {
    var s := p + y + q;
    var f := IndexOf(y, c);
    assert forall r :: 0 <= r < |p| ==> s[r] == p[r];
    assert forall r :: |p| <= r < |p| + f ==> s[r] == y[..f][r - |p|];
    IndexOfUnique(s, c, |p| + f);
  }

  lemma LastIndexOfShift(p: string, y: string, q: string, c: char)
    requires c !in q && c in y
    ensures LastIndexOf(p + y + q, c) == |p| + LastIndexOf(y, c)
  {
    var s := p + y + q;
    var l := LastIndexOf(y, c);
    forall r | |p| + l < r < |s|
      ensures s[r] != c
    {
      if r < |p| + |y| {
        assert s[r] == y[r - |p|] == y[l + 1..][r - |p| - l - 1];
      } else {
        assert s[r] == q[r - |p| - |y|];
      }
    }
    assert s[|p| + l] == y[l];
    LastIndexOfUnique(s, c, |p| + l);
  }

  /** Brace-free text on either side of a reply does not change what is
      sliced out of it. */
  lemma SliceBracesFrame(p: string, y: string, q: string)
    requires NoBraces(p) && NoBraces(q) && HasBraces(y)
    ensures SliceBraces(p + y + q) == SliceBraces(y)
  {
    BracesShift(p, y, q);
    assert forall k :: 0 <= k < |y| ==> (p + y + q)[|p| + k] == y[k];
    SliceBracesShifted(p + y + q, y, |p|);
  }

  /** Brace-free framing moves both brace positions by the length of the
      text in front. */
  lemma BracesShift(p: string, y: string, q: string)
    requires NoBraces(p) && NoBraces(q) && HasBraces(y)
    ensures IndexOf(y, '{') >= 0 && LastIndexOf(y, '}') >= 0
    ensures IndexOf(p + y + q, '{') == |p| + IndexOf(y, '{')
    ensures LastIndexOf(p + y + q, '}') == |p| + LastIndexOf(y, '}')
  {
    IndexOfShift(p, y, q, '{');
    LastIndexOfShift(p, y, q, '}');
  }

  /** When `t` sits at offset `d` inside `s` and both brace positions of
      `s` are those of `t` moved by `d`, the two slices agree. */
  lemma SliceBracesShifted(s: string, t: string, d: nat)
    requires d + |t| <= |s| && forall k :: 0 <= k < |t| ==> s[d + k] == t[k]
    requires IndexOf(t, '{') >= 0 && LastIndexOf(t, '}') >= 0
    requires IndexOf(s, '{') == d + IndexOf(t, '{') && LastIndexOf(s, '}') == d + LastIndexOf(t, '}')
    ensures SliceBraces(s) == SliceBraces(t)
  {
    var a := IndexOf(t, '{');
    var l := LastIndexOf(t, '}');
    assert a <= |t| && l + 1 <= |t|;
    SubstringWithin(s, t, d, a, l + 1);
    SliceBracesAt(s, d + a, d + l);
    SliceBracesAt(t, a, l);
  }

  lemma SliceBracesAt(s: string, f: nat, l: nat)
    requires IndexOf(s, '{') == f && LastIndexOf(s, '}') == l
    ensures SliceBraces(s) == Substring(s, f, l + 1)
  {
  }

  /** `substring` inside a text placed at offset `d` is `substring` of the
      text itself, in either order of the two positions. */
  lemma SubstringWithin(s: string, t: string, d: nat, a: nat, b: nat)
    requires d + |t| <= |s| && forall k :: 0 <= k < |t| ==> s[d + k] == t[k]
    requires a <= |t| && b <= |t|
    ensures Substring(s, d + a, d + b) == Substring(t, a, b)
  {
    if a <= b {
      SliceWithin(s, t, d, a, b);
    } else {
      SliceWithin(s, t, d, b, a);
      SubstringSymmetric(s, d + a, d + b);
      SubstringSymmetric(t, a, b);
    }
  }

  lemma SliceWithin(s: string, t: string, d: nat, a: nat, b: nat)
    requires d + |t| <= |s| && forall k :: 0 <= k < |t| ==> s[d + k] == t[k]
    requires a <= b <= |t|
    ensures s[d + a..d + b] == t[a..b]
  {
    forall k | 0 <= k < b - a
      ensures s[d + a..d + b][k] == t[a..b][k]
    {
      assert t[a..b][k] == t[a + k];
    }
  }

  /** The whole clean-up applied to the raw reply before parsing. */
  function CleanReply(text: string): (r: string)
    ensures |r| <= |text|
    ensures HasBraces(r) ==> Bracketed(r)
  {
    var t := Trim(text);
    var u := StripFences(t);
    var r := SliceBraces(u);
    assert |r| <= |u| <= |t| <= |text|;
    SliceBracesBracketed(u);
    r
  }

  /** Opens with `{` and closes with `}`. */
  predicate Bracketed(r: string) {
    |r| >= 2 && r[0] == '{' && r[|r| - 1] == '}'
  }

  /** Whenever the slice holds both braces, it opens with `{` and closes
      with `}`: the swapped case never yields a brace. */
  lemma SliceBracesBracketed(u: string)
    ensures HasBraces(SliceBraces(u)) ==> Bracketed(SliceBraces(u))
  {
    if exists a, b :: 0 <= a < b < |u| && u[a] == '{' && u[b] == '}' {
      var i, j := SliceBracesSpan(u);
    } else if HasBraces(u) {
      var i, j := SliceBracesSwapped(u);
    }
  }

  /** Trimming and fence stripping never remove a brace, so when the raw
      reply holds both kinds of brace the string handed to the parser is
      what slicing the raw reply gives. */
  lemma {:induction false} CleanReplyIsSlice(text: string)
    requires HasBraces(text)
    ensures CleanReply(text) == SliceBraces(text)
  {
    var t := Trim(text);
    var pre1, post1 := TrimPeels(text);
    WhitespaceHasNoBraces(pre1);
    WhitespaceHasNoBraces(post1);
    assert HasBraces(t);
    SliceBracesFrame(pre1, t, post1);
    var u := StripFences(t);
    var pre2, post2 := FencesPeel(t);
    assert HasBraces(u);
    SliceBracesFrame(pre2, u, post2);
  }

  /** A JSON object surrounded by brace-free prose, a code fence included,
      is recovered exactly. */
  lemma {:induction false} ObjectInProse(p: string, b: string, q: string)
    requires NoBraces(p) && NoBraces(q)
    requires |b| >= 2 && b[0] == '{' && b[|b| - 1] == '}'
    ensures CleanReply(p + b + q) == b
  {
    var s := p + b + q;
    assert b[0] in b && b[|b| - 1] in b;
    assert s[|p|] == '{' && s[|p| + |b| - 1] == '}';
    assert HasBraces(s);
    CleanReplyIsSlice(s);
    SliceBracesFrame(p, b, q);
    SliceOfObject(b);
  }

  /** An object from its opening to its closing brace is its own slice. */
  lemma SliceOfObject(b: string)
    requires Bracketed(b)
    ensures SliceBraces(b) == b
  {
    IndexOfUnique(b, '{', 0);
    LastIndexOfUnique(b, '}', |b| - 1);
  }

  /** A reply wrapped in a json code fence parses as the bare object. */
  lemma FencedObject(b: string)
    requires |b| >= 2 && b[0] == '{' && b[|b| - 1] == '}'
    ensures CleanReply(OpenFence + "\n" + b + "\n" + CloseFence) == b
  {
    var p := OpenFence + "\n";
    var q := "\n" + CloseFence;
    assert NoBraces(p) && NoBraces(q);
    assert OpenFence + "\n" + b + "\n" + CloseFence == p + b + q;
    ObjectInProse(p, b, q);
  }

  /** What `JSON.parse` yields, as far as the reply handling can tell:
      a syntax error, a primitive (including `null`), or an object read as
      the response shape. */
  datatype JsonValue = Invalid | Primitive | Object(response: WellnessResponse)

  /** A grounding citation as the analysis service reports it. */
  datatype WebSource = WebSource(title: string, uri: string)
  datatype GroundingChunk = GroundingChunk(web: Option<WebSource>)

  /** One resource per chunk that carries a web entry, in chunk order. */
  function ResourcesOf(chunks: seq<GroundingChunk>): (rs: seq<Resource>)
    ensures |rs| <= |chunks|
    ensures forall r :: r in rs ==> exists c :: c in chunks && c.web == Some(WebSource(r.title, r.url))
    ensures forall c :: c in chunks && c.web.Some? ==> Resource(c.web.value.title, c.web.value.uri) in rs
  {
    if |chunks| == 0 then []
    else
      var rest := ResourcesOf(chunks[1..]);
      match chunks[0].web
      case Some(w) => [Resource(w.title, w.uri)] + rest
      case None => rest
  }

  /** Resources are collected chunk by chunk, in order: the resources of a
      concatenation are those of its two parts, one after the other. */
  lemma {:induction false} ResourcesOfConcat(a: seq<GroundingChunk>, b: seq<GroundingChunk>)
    ensures ResourcesOf(a + b) == ResourcesOf(a) + ResourcesOf(b)
    decreases |a|
  {
    if |a| > 0 {
      assert (a + b)[1..] == a[1..] + b;
      ResourcesOfConcat(a[1..], b);
    } else {
      assert a + b == b;
    }
  }

  function UrlsOf(rs: seq<Resource>): set<string> {
    set r | r in rs :: r.url
  }

  predicate DistinctUrls(rs: seq<Resource>) {
    forall i, j :: 0 <= i < j < |rs| ==> rs[i].url != rs[j].url
  }

  /** Position of the first resource with the given URL, `|rs|` if none. */
  function UrlIndex(rs: seq<Resource>, u: string): (k: nat)
    ensures k <= |rs|
    ensures k < |rs| ==> rs[k].url == u
    ensures forall j :: 0 <= j < k ==> rs[j].url != u
    ensures k == |rs| <==> u !in UrlsOf(rs)
  {
    if |rs| == 0 then 0
    else if rs[0].url == u then 0
    else
      var k := 1 + UrlIndex(rs[1..], u);
      assert u in UrlsOf(rs[1..]) <==> u in UrlsOf(rs) by {
        assert rs == [rs[0]] + rs[1..];
      }
      k
  }

  /** The last resource with the given URL; an independent statement of
      which value a key keeps. */
  function LastWithUrl(rs: seq<Resource>, u: string): Option<Resource> {
    if |rs| == 0 then None
    else if rs[|rs| - 1].url == u then Some(rs[|rs| - 1])
    else LastWithUrl(rs[..|rs| - 1], u)
  }

  lemma InUrlsOf(rs: seq<Resource>, u: string)
    ensures u in UrlsOf(rs) <==> exists i :: 0 <= i < |rs| && rs[i].url == u
  {
    if u in UrlsOf(rs) {
      var r :| r in rs && r.url == u;
    }
    if exists i :: 0 <= i < |rs| && rs[i].url == u {
      var i :| 0 <= i < |rs| && rs[i].url == u;
      assert rs[i] in rs;
    }
  }

  /** `map.set(item.url, item)` on a JavaScript `Map`, kept as its entry list
      in insertion order: an existing key keeps its place and takes the new
      value, a new key goes to the end. */
  function Put(m: seq<Resource>, item: Resource): (m': seq<Resource>)
    ensures |m'| >= |m|
    ensures UrlsOf(m') == UrlsOf(m) + {item.url}
    ensures DistinctUrls(m) ==> DistinctUrls(m')
    ensures item in m'
    ensures forall i :: 0 <= i < |m| && m[i].url != item.url ==> m'[i] == m[i]
    ensures item.url in UrlsOf(m) ==> |m'| == |m| && forall i :: 0 <= i < |m| ==> m'[i].url == m[i].url
    ensures item.url !in UrlsOf(m) ==> m' == m + [item]
  {
    var k := UrlIndex(m, item.url);
    if k < |m| then
      var m' := m[k := item];
      assert m'[k] == item;
      assert forall i :: 0 <= i < |m| ==> m'[i].url == m[i].url;
      assert UrlsOf(m') == UrlsOf(m) by {
        forall u ensures u in UrlsOf(m') <==> u in UrlsOf(m) {
          InUrlsOf(m', u);
          InUrlsOf(m, u);
        }
      }
      m'
    else
      var m' := m + [item];
      assert UrlsOf(m') == UrlsOf(m) + {item.url} by {
        forall u ensures u in UrlsOf(m') <==> u in UrlsOf(m) + {item.url} {
          InUrlsOf(m', u);
          InUrlsOf(m, u);
          assert m'[|m|] == item;
          assert forall i :: 0 <= i < |m| ==> m'[i] == m[i];
        }
      }
      assert forall i :: 0 <= i < |m| ==> m[i] in m;
      m'
  }

  /** `Array.from(new Map(rs.map(r => [r.url, r])).values())`. */
  function Dedup(rs: seq<Resource>): (m: seq<Resource>)
    ensures DistinctUrls(m)
    ensures UrlsOf(m) == UrlsOf(rs)
  {
    if |rs| == 0 then []
    else
      var init := rs[..|rs| - 1];
      assert rs == init + [rs[|rs| - 1]];
      assert UrlsOf(rs) == UrlsOf(init) + {rs[|rs| - 1].url};
      Put(Dedup(init), rs[|rs| - 1])
  }

  lemma UrlIndexExtend(rs: seq<Resource>, x: Resource, u: string)
    requires u in UrlsOf(rs)
    ensures UrlIndex(rs + [x], u) == UrlIndex(rs, u)
  {
    var k := UrlIndex(rs, u);
    var s := rs + [x];
    assert forall r :: 0 <= r <= k ==> s[r] == rs[r];
  }

  /** Each kept entry carries the value of the last resource with its URL. */
  lemma {:induction false} DedupKeepsLast(rs: seq<Resource>)
    ensures forall i :: 0 <= i < |Dedup(rs)| ==> LastWithUrl(rs, Dedup(rs)[i].url) == Some(Dedup(rs)[i])
  {
    if |rs| > 0 {
      var init := rs[..|rs| - 1];
      var x := rs[|rs| - 1];
      DedupKeepsLast(init);
      var m0 := Dedup(init);
      var m := Dedup(rs);
      assert m == Put(m0, x);
      forall i | 0 <= i < |m|
        ensures LastWithUrl(rs, m[i].url) == Some(m[i])
      {
        if m[i].url != x.url {
          assert i < |m0| && m[i] == m0[i];
        } else {
          var k :| 0 <= k < |m| && m[k] == x;
          assert k == i;
        }
      }
    }
  }

  lemma UrlIndexOfNew(rs: seq<Resource>, x: Resource)
    requires x.url !in UrlsOf(rs)
    ensures UrlIndex(rs + [x], x.url) == |rs|
  {
    var s := rs + [x];
    forall k | 0 <= k < |rs| ensures s[k].url != x.url {
      assert s[k] == rs[k] && rs[k] in rs;
    }
  }

  /** The kept entries come in the order of each URL's first appearance. */
  lemma {:induction false} DedupFirstOrder(rs: seq<Resource>)
    ensures forall i, j :: 0 <= i < j < |Dedup(rs)| ==> UrlIndex(rs, Dedup(rs)[i].url) < UrlIndex(rs, Dedup(rs)[j].url)
  {
    if |rs| > 0 {
      var init := rs[..|rs| - 1];
      var x := rs[|rs| - 1];
      assert rs == init + [x];
      DedupFirstOrder(init);
      var m0 := Dedup(init);
      var m := Dedup(rs);
      assert m == Put(m0, x);
      DedupIndexesKept(init, x);
      if x.url !in UrlsOf(m0) {
        UrlIndexOfNew(init, x);
        OrderAfterAppend(rs, init, m0, x);
      } else {
        OrderAfterUpdate(rs, init, m0, m);
      }
    }
  }

  /** Overwriting entries in place keeps the order of first appearances. */
  lemma OrderAfterUpdate(rs: seq<Resource>, init: seq<Resource>, m0: seq<Resource>, m: seq<Resource>)
    requires forall i, j :: 0 <= i < j < |m0| ==> UrlIndex(init, m0[i].url) < UrlIndex(init, m0[j].url)
    requires forall i :: 0 <= i < |m0| ==> UrlIndex(rs, m0[i].url) == UrlIndex(init, m0[i].url)
    requires |m| == |m0| && forall i :: 0 <= i < |m| ==> m[i].url == m0[i].url
    ensures forall i, j :: 0 <= i < j < |m| ==> UrlIndex(rs, m[i].url) < UrlIndex(rs, m[j].url)
  {
  }

  /** Appending an entry whose URL first appears after all the others keeps
      the order of first appearances. */
  lemma OrderAfterAppend(rs: seq<Resource>, init: seq<Resource>, m0: seq<Resource>, x: Resource)
    requires forall i, j :: 0 <= i < j < |m0| ==> UrlIndex(init, m0[i].url) < UrlIndex(init, m0[j].url)
    requires forall i :: 0 <= i < |m0| ==> UrlIndex(rs, m0[i].url) == UrlIndex(init, m0[i].url) < |init|
    requires UrlIndex(rs, x.url) == |init|
    ensures forall i, j :: 0 <= i < j < |m0 + [x]| ==> UrlIndex(rs, (m0 + [x])[i].url) < UrlIndex(rs, (m0 + [x])[j].url)
  {
    var f := (r: Resource) => UrlIndex(rs, r.url);
    assert forall i :: 0 <= i < |m0| ==> f(m0[i]) == UrlIndex(rs, m0[i].url);
    AppendKeepsIncreasing(m0, x, f, |init|);
    var m := m0 + [x];
    assert forall i :: 0 <= i < |m| ==> f(m[i]) == UrlIndex(rs, m[i].url);
  }

  /** Appending a value above every key keeps a list strictly increasing in
      its keys. */
  lemma AppendKeepsIncreasing(m0: seq<Resource>, x: Resource, f: Resource -> int, bound: int)
    requires forall i, j :: 0 <= i < j < |m0| ==> f(m0[i]) < f(m0[j])
    requires forall i :: 0 <= i < |m0| ==> f(m0[i]) < bound
    requires f(x) == bound
    ensures forall i, j :: 0 <= i < j < |m0 + [x]| ==> f((m0 + [x])[i]) < f((m0 + [x])[j])
  {
    var m := m0 + [x];
    forall i, j | 0 <= i < j < |m|
      ensures f(m[i]) < f(m[j])
    {
      assert m[i] == m0[i];
      if j < |m0| {
        assert m[j] == m0[j];
      }
    }
  }

  /** A resource added at the end moves no first appearance of a URL the
      list already holds. */
  lemma DedupIndexesKept(init: seq<Resource>, x: Resource)
    ensures forall i :: 0 <= i < |Dedup(init)| ==>
      UrlIndex(init + [x], Dedup(init)[i].url) == UrlIndex(init, Dedup(init)[i].url) < |init|
  {
    var m0 := Dedup(init);
    forall i | 0 <= i < |m0|
      ensures UrlIndex(init + [x], m0[i].url) == UrlIndex(init, m0[i].url) < |init|
    {
      assert m0[i] in m0;
      UrlIndexExtend(init, x, m0[i].url);
    }
  }

  /** The substitute reply when the model's text does not parse. */
  const Fallback: WellnessResponse := WellnessResponse(
    "We encountered an error processing the results. Please try again.",
    "Analysis unavailable.",
    ["Please ensure your image is clear.", "Try describing your symptoms again."],
    "Error in analysis.",
    "System error occurred.",
    Some([]))

  /** The fail-soft reply is a complete response: every text field is
      filled, it carries the two suggestions of the source, and an empty,
      present list of resources. */
  lemma FallbackContent()
    ensures Fallback.visualInterpretation != [] && Fallback.symptomSummary != []
    ensures Fallback.trackableSummary != [] && Fallback.disclaimer != []
    ensures Fallback.wellnessSuggestions == ["Please ensure your image is clear.", "Try describing your symptoms again."]
    ensures Fallback.trustedResources == Some([])
  {
  }

  /** Why reply handling throws: the reply had no text, or the parsed value
      was a primitive, on which the resource field cannot be set. */
  datatype ReplyError = NoResponse | NotAnObject

  /** The grounded resources for a reply: web citations, one per URL. */
  function TrustedResources(grounding: Option<seq<GroundingChunk>>): (rs: seq<Resource>)
    ensures DistinctUrls(rs)
    ensures UrlsOf(rs) == UrlsOf(ResourcesOf(grounding.GetOr([])))
    ensures grounding.None? ==> rs == []
  {
    Dedup(ResourcesOf(grounding.GetOr([])))
  }

  /** Everything that happens to the model's reply: `text` is the reply
      text (None when absent), `parse` stands for `JSON.parse`, and
      `grounding` for the grounding chunks of the first candidate. */
  function HandleReply(text: Option<string>, parse: string -> JsonValue,
                       grounding: Option<seq<GroundingChunk>>): (r: Result<WellnessResponse, ReplyError>)
    ensures !Truthy(text) <==> r == Err(NoResponse)
    ensures Truthy(text) && parse(CleanReply(text.value)).Invalid? ==> r == Ok(Fallback)
    ensures Truthy(text) && parse(CleanReply(text.value)).Primitive? ==> r == Err(NotAnObject)
    ensures r.Ok? ==> r.value.trustedResources.Some?
    ensures Truthy(text) && parse(CleanReply(text.value)).Object? ==>
      && r.Ok?
      && r.value.(trustedResources := None) == parse(CleanReply(text.value)).response.(trustedResources := None)
      && DistinctUrls(r.value.trustedResources.value)
      && UrlsOf(r.value.trustedResources.value) == UrlsOf(ResourcesOf(grounding.GetOr([])))
  {
    if !Truthy(text) then Err(NoResponse)
    else
      match parse(CleanReply(text.value))
      case Invalid => Ok(Fallback)
      case Primitive => Err(NotAnObject)
      case Object(p) => Ok(p.(trustedResources := Some(TrustedResources(grounding))))
  }

  /** An example of grounding citations: a URL cited twice keeps one entry,
      with the later title, in the place of its first citation. */
  lemma DedupExample()
    ensures Dedup([Resource("X", "a"), Resource("Y", "a"), Resource("Z", "b")])
         == [Resource("Y", "a"), Resource("Z", "b")]
  {
    assert "a" != "b" by { assert "a"[0] != "b"[0]; }
    DedupLaterWins(Resource("X", "a"), Resource("Y", "a"), Resource("Z", "b"));
  }

  /** Of two items sharing a url the later one stays, in the earlier one's
      place; an item with a new url follows it. */
  lemma DedupLaterWins(x: Resource, y: Resource, z: Resource)
    requires x.url == y.url && z.url != y.url
    ensures Dedup([x, y, z]) == [y, z]
  {
    DedupSnoc([x, y], z);
    assert [x, y] + [z] == [x, y, z];
    DedupSameUrl(x, y);
    assert z.url !in UrlsOf([y]);
  }

  /** Of two items sharing a url only the later one stays. */
  lemma DedupSameUrl(x: Resource, y: Resource)
    requires x.url == y.url
    ensures Dedup([x, y]) == [y]
  {
    DedupSnoc([x], y);
    assert [x] + [y] == [x, y];
    DedupSingle(x);
    PutSameUrl(x, y);
  }

  lemma DedupSingle(x: Resource)
    ensures Dedup([x]) == [x]
  {
    DedupSnoc([], x);
    assert [] + [x] == [x];
  }

  /** Deduplicating one more item puts it into the deduplicated prefix. */
  lemma DedupSnoc(init: seq<Resource>, x: Resource)
    ensures Dedup(init + [x]) == Put(Dedup(init), x)
  {
    assert (init + [x])[..|init|] == init;
  }

  /** An item replaces the only entry sharing its url. */
  lemma PutSameUrl(x: Resource, y: Resource)
    requires x.url == y.url
    ensures Put([x], y) == [y]
  {
    assert UrlIndex([x], y.url) == 0;
  }
}

=== FILE: sanitize.dfy ===
/** The request side of the analysis service (services/geminiService.ts):
    how the user's free text is cleaned before it is placed in the prompt. */
module Sanitize {
  import opened Wrappers
  import opened Text

  /** Length of the run of characters other than '>' that `t` starts with:
      what the greedy class `[^>]+` consumes (newlines included). */
  function NonGtRun(t: string): (n: nat)
    ensures n <= |t|
    ensures forall i :: 0 <= i < n ==> t[i] != '>'
    ensures n < |t| ==> t[n] == '>'
  {
    if |t| == 0 || t[0] == '>' then 0 else 1 + NonGtRun(t[1..])
  }

  /** End of a match whose `[^>]+` starts at position `k` of `t`: past the
      run, then past a closing '>' when there is one (the `(>|$)` group). */
  function CloseAfterRun(t: string, k: nat): nat
    requires k <= |t|
  {
    var e := k + NonGtRun(t[k..]);
    if e < |t| then e + 1 else e
  }

  /** Length of the match of the tag pattern `<\/?[^>]+(>|$)` anchored at the
      start of `t`, or None when the pattern does not match there. The engine
      first lets `\/?` take a slash and, when the class then finds nothing,
      backtracks to leave the slash to the class. After a maximal run of
      non-'>' characters the next character is '>' or the input has ended, so
      `(>|$)` never fails and the engine never backtracks into the run. */
  function TagMatch(t: string): (m: Option<nat>)
    ensures m.Some? <==> 2 <= |t| && t[0] == '<' && t[1] != '>'
    ensures m.Some? ==> 2 <= m.value <= |t|
    ensures m.Some? ==> forall i :: 1 <= i < m.value - 1 ==> t[i] != '>'
    ensures m.Some? ==> m.value == |t| || t[m.value - 1] == '>'
  {
    if |t| == 0 || t[0] != '<' then None
    else if 3 <= |t| && t[1] == '/' && NonGtRun(t[2..]) > 0 then
      Some(CloseAfterRun(t, 2))
    else if 2 <= |t| && NonGtRun(t[1..]) > 0 then
      Some(CloseAfterRun(t, 1))
    else None
  }

  /** Whether the optional slash is taken by `\/?` or by `[^>]+` does not
      change where a match ends: it always runs to the first '>' after the
      '<' inclusive, or to the end of the input. */
  lemma SlashIsIrrelevant(t: string)
    requires TagMatch(t).Some?
    ensures TagMatch(t).value == CloseAfterRun(t, 1)
  {
    if 3 <= |t| && t[1] == '/' && NonGtRun(t[2..]) > 0 {
      assert t[2..] == t[1..][1..];
    }
  }

  /** No position of `r` starts a match of the tag pattern. */
  predicate NoTagLeft(r: string) {
    forall i :: 0 <= i < |r| ==> TagMatch(r[i..]).None?
  }

  predicate NoAngleBrackets(s: string) {
    '<' !in s && '>' !in s
  }

  /** `replace(/<\/?[^>]+(>|$)/g, "")`: scanning left to right, every
      non-overlapping match of the tag pattern is deleted. A '<' that starts
      no match (it is last, or followed by '>') is kept. */
  function StripTags(s: string): (r: string)
    ensures |r| <= |s|
    ensures NoTagLeft(r)
    decreases |s|
  {
    if |s| == 0 then []
    else
      match TagMatch(s)
      case Some(n) => StripTags(s[n..])
      case None =>
        var rest := StripTags(s[1..]);
        var r := [s[0]] + rest;
        assert |s| >= 2 && s[0] == '<' ==> s[1] == '>' && rest[0] == '>';
        assert forall i :: 1 <= i < |r| ==> r[i..] == rest[i - 1..];
        r
  }

  /** Text in which no tag matches is left alone by `StripTags`. */
  lemma {:induction false} StripTagsFixed(s: string)
    requires NoTagLeft(s)
    ensures StripTags(s) == s
    decreases |s|
  {
    if |s| > 0 {
      assert TagMatch(s[0..]).None?;
      assert s[0..] == s;
      assert forall i :: 0 <= i < |s| - 1 ==> s[1..][i..] == s[i + 1..];
      StripTagsFixed(s[1..]);
    }
  }

  /** Stripping twice strips nothing more. */
  lemma StripTagsIdempotent(s: string)
    ensures StripTags(StripTags(s)) == StripTags(s)
  {
    StripTagsFixed(StripTags(s));
  }

  /** Text before the first `<` is kept as it is. */
  lemma {:induction false} StripTagsPlainPrefix(p: string, x: string)
    requires '<' !in p
    ensures StripTags(p + x) == p + StripTags(x)
    decreases |p|
  {
    if |p| > 0 {
      var s := p + x;
      assert s[0] == p[0] && s[0] != '<';
      assert s[1..] == p[1..] + x;
      StripTagsPlainPrefix(p[1..], x);
      assert p == [p[0]] + p[1..];
    } else {
      assert p + x == x;
    }
  }

  /** The run of non-'>' characters at the start of `t + rest` is all of
      `t` when `t` holds no '>' and `rest` starts with one or is empty. */
  lemma NonGtRunOf(t: string, rest: string)
    requires '>' !in t
    requires rest == [] || rest[0] == '>'
    ensures NonGtRun(t + rest) == |t|
  {
    var u := t + rest;
    assert forall i :: 0 <= i < |t| ==> u[i] == t[i] && u[i] != '>';
    assert |t| < |u| ==> u[|t|] == '>';
  }

  /** A complete tag `<t>` is removed with its contents, and the text after
      it is stripped in turn. */
  lemma StripTagsDropsTag(t: string, q: string)
    requires |t| > 0 && '>' !in t
    ensures StripTags("<" + t + ">" + q) == StripTags(q)
  {
    var s := "<" + t + ">" + q;
    assert s[1..] == t + (">" + q);
    NonGtRunOf(t, ">" + q);
    assert s[1] == t[0];
    SlashIsIrrelevant(s);
    assert s[|t| + 2..] == q;
  }

  /** A `<` that no `>` follows starts a match running to the end of the
      text, so everything from it on is removed. */
  lemma StripTagsLoneOpen(t: string)
    requires |t| > 0 && '>' !in t
    ensures StripTags("<" + t) == []
  {
    var s := "<" + t;
    assert s[1..] == t + [];
    NonGtRunOf(t, []);
    assert s[1] == t[0];
    SlashIsIrrelevant(s);
  }

  /** A `<` directly followed by `>` starts no match: the pair is kept and
      stripping goes on after it. */
  lemma StripTagsKeepsEmptyPair(x: string)
    ensures StripTags("<>" + x) == "<>" + StripTags(x)
  {
    var s := "<>" + x;
    assert s[0] == '<' && s[1] == '>';
    StripTagsKeepsOpen(s);
    assert s[1..] == ">" + x;
    StripTagsPlainPrefix(">", x);
    assert "<" + (">" + StripTags(x)) == "<>" + StripTags(x);
  }

  /** A `<` followed by `>` is kept as it stands. */
  lemma StripTagsKeepsOpen(s: string)
    requires |s| >= 2 && s[0] == '<' && s[1] == '>'
    ensures StripTags(s) == "<" + StripTags(s[1..])
  {
    assert TagMatch(s).None?;
  }

  /** A comparison typed by the user loses everything after its `<`:
      "x < 3" comes out as "x ". */
  lemma ComparisonIsCut()
    ensures StripTags("x < 3") == "x "
  {
    StripTagsPlainPrefix("x ", "< 3");
    assert "x < 3" == "x " + "< 3";
    StripTagsLoneOpen(" 3");
    assert "< 3" == "<" + " 3";
    assert '>' !in " 3" by {
      assert forall i :: 0 <= i < |" 3"| ==> " 3"[i] != '>';
    }
  }

  /** Tags are removed and the text around them kept: "a<b>c" comes out as
      "ac". */
  lemma TagBetweenText()
    ensures StripTags("a<b>c") == "ac"
  {
    assert "a<b>c" == "a" + ("<" + "b" + ">" + "c");
    StripTagsPlainPrefix("a", "<" + "b" + ">" + "c");
    StripTagsDropsTag("b", "c");
  }

  /** `replace(/c/g, rep)` for a single character `c`. With
      `ReplaceCharConcat` the single-character cases determine it: every
      occurrence of `c` becomes `rep`, every other character stays, in
      order. */
  function ReplaceChar(s: string, c: char, rep: string): (r: string)
    ensures c !in s ==> r == s
    ensures c !in rep ==> c !in r
    ensures forall d :: d in r ==> d in s || d in rep
    ensures s == [c] ==> r == rep
    ensures |s| == 1 && s[0] != c ==> r == s
  {
    if |s| == 0 then []
    else (if s[0] == c then rep else [s[0]]) + ReplaceChar(s[1..], c, rep)
  }

  /** Replacement works piece by piece: replacing in a concatenation is
      replacing in each part. */
  lemma {:induction false} ReplaceCharConcat(a: string, b: string, c: char, rep: string)
    ensures ReplaceChar(a + b, c, rep) == ReplaceChar(a, c, rep) + ReplaceChar(b, c, rep)
    decreases |a|
  {
    if |a| > 0 {
      assert (a + b)[1..] == a[1..] + b;
      ReplaceCharConcat(a[1..], b, c, rep);
    } else {
      assert a + b == b;
    }
  }

  /** `replace(/</g, "&lt;").replace(/>/g, "&gt;")`: with `EscapeConcat`,
      each `<` becomes `&lt;`, each `>` becomes `&gt;`, and every other
      character stays where it was. */
  function Escape(s: string): (r: string)
    ensures NoAngleBrackets(r)
    ensures NoAngleBrackets(s) ==> r == s
    ensures s == "<" ==> r == "&lt;"
    ensures s == ">" ==> r == "&gt;"
  {
    assert '>' !in "&lt;" by {
      assert forall i :: 0 <= i < |"&lt;"| ==> "&lt;"[i] != '>';
    }
    ReplaceChar(ReplaceChar(s, '<', "&lt;"), '>', "&gt;")
  }

  /** Escaping works piece by piece. */
  lemma EscapeConcat(a: string, b: string)
    ensures Escape(a + b) == Escape(a) + Escape(b)
  {
    ReplaceCharConcat(a, b, '<', "&lt;");
    ReplaceCharConcat(ReplaceChar(a, '<', "&lt;"), ReplaceChar(b, '<', "&lt;"), '>', "&gt;");
  }

  /** The cleaned user text: tags stripped, then angle brackets escaped. */
  function CleanInput(s: string): (r: string)
    ensures NoAngleBrackets(r)
    ensures NoAngleBrackets(s) ==> r == s
  {
    assert NoAngleBrackets(s) ==> StripTags(s) == s by {
      if NoAngleBrackets(s) { StripTagsFixed(s); }
    }
    Escape(StripTags(s))
  }

  /** Sanitising changes a text exactly when it holds an angle bracket. */
  lemma CleanInputFixedIff(s: string)
    ensures CleanInput(s) == s <==> NoAngleBrackets(s)
  {
  }

  /** Sanitising an already sanitised text changes nothing. */
  lemma CleanInputIdempotent(s: string)
    ensures CleanInput(CleanInput(s)) == CleanInput(s)
  {
  }

  const Placeholder: string := "No text description provided."

  /** The text placed in the data block: the placeholder when the cleaned
      text is blank, the cleaned text verbatim otherwise. The block is never
      blank. */
  function UserContent(clean: string): (r: string)
    ensures Trim(clean) != [] ==> r == clean
    ensures Trim(clean) == [] ==> r == Placeholder
    ensures Trim(r) != []
  {
    assert !IsWhitespace(Placeholder[0]);
    if Trim(clean) == [] then Placeholder else clean
  }

  const BeginMarker: string := "[BEGIN_USER_DATA_BLOCK]"
  const EndMarker: string := "[END_USER_DATA_BLOCK]"

  /** The lines that open and close the data block in the prompt template. */
  const BlockOpen: string := "\n    " + BeginMarker + "\n    "
  const BlockClose: string := "\n    " + EndMarker + "\n"

  /** The prompt text up to and including the end-marker line; the fixed
      instruction block that follows it is not modelled. It opens with the
      begin-marker line and closes with the end-marker line. */
  function PromptHead(text: string): (r: string)
    ensures StartsWith(r, BlockOpen)
    ensures EndsWith(r, BlockClose)
  {
    Framed(BlockOpen, UserContent(CleanInput(text)), BlockClose)
  }

  function Framed(head: string, x: string, tail: string): (r: string)
    ensures StartsWith(r, head) && EndsWith(r, tail)
  {
    var r := head + x + tail;
    assert r[..|head|] == head;
    assert r[|r| - |tail|..] == tail;
    r
  }

  /** Whatever the user types, what sits between the two marker lines holds
      no angle bracket and is not blank, and it is the user's text itself
      when that text needs no cleaning and is not blank. */
  lemma PromptSandwich(text: string) returns (content: string)
    ensures PromptHead(text) == BlockOpen + content + BlockClose
    ensures NoAngleBrackets(content) && Trim(content) != []
    ensures NoAngleBrackets(text) && Trim(text) != [] ==> content == text
  {
    var clean := CleanInput(text);
    content := UserContent(clean);
    PlaceholderIsPlain();
    if NoAngleBrackets(text) && Trim(text) != [] {
      assert clean == text;
    }
  }

  lemma PlaceholderIsPlain()
    ensures NoAngleBrackets(Placeholder)
  {
    assert forall i :: 0 <= i < |Placeholder| ==> Placeholder[i] != '<' && Placeholder[i] != '>';
  }

  /** The sanitiser escapes angle brackets only; the square-bracket markers
      around the data block pass through untouched, so a user text can
      reproduce the end-marker line inside the block. */
  lemma EndMarkerPassesThrough(before: string, after: string)
    requires NoAngleBrackets(before) && NoAngleBrackets(after)
    ensures CleanInput(before + EndMarker + after) == before + EndMarker + after
  {
    assert forall i :: 0 <= i < |EndMarker| ==> EndMarker[i] != '<' && EndMarker[i] != '>';
    var text := before + EndMarker + after;
    forall i | 0 <= i < |text| ensures text[i] != '<' && text[i] != '>' {
      if i < |before| {
        assert text[i] == before[i];
      } else if i < |before| + |EndMarker| {
        assert text[i] == EndMarker[i - |before|];
      } else {
        assert text[i] == after[i - |before| - |EndMarker|];
      }
    }
  }
}

=== FILE: text.dfy ===
/** The JavaScript string primitives the application relies on:
    `String.prototype.trim`, `indexOf`, `lastIndexOf` and `substring`.
    Strings are sequences of characters; every character these operations
    look at lies in the Basic Multilingual Plane, so UTF-16 code units and
    characters coincide for them. */
module Text {

  /** JavaScript's WhiteSpace and LineTerminator code points: exactly what
      `trim` removes and what the regular-expression class `\s` matches. */
  predicate IsWhitespace(c: char) {
    || c == '\t' || c == '\n' || c == '\U{000B}' || c == '\U{000C}' || c == '\r'
    || c == ' ' || c == '\U{00A0}' || c == '\U{1680}'
    || ('\U{2000}' <= c <= '\U{200A}')
    || c == '\U{2028}' || c == '\U{2029}' || c == '\U{202F}' || c == '\U{205F}'
    || c == '\U{3000}' || c == '\U{FEFF}'
  }

  predicate AllWhitespace(s: string) {
    forall i :: 0 <= i < |s| ==> IsWhitespace(s[i])
  }

  /** Number of whitespace characters `s` starts with. */
  function LeadingWhitespace(s: string): (n: nat)
    ensures n <= |s|
    ensures AllWhitespace(s[..n])
    ensures n < |s| ==> !IsWhitespace(s[n])
  {
    if |s| == 0 || !IsWhitespace(s[0]) then 0
    else
      var m := LeadingWhitespace(s[1..]);
      assert s[..1 + m] == [s[0]] + s[1..][..m];
      1 + m
  }

  /** Number of whitespace characters `s` ends with. */
  function TrailingWhitespace(s: string): (n: nat)
    ensures n <= |s|
    ensures AllWhitespace(s[|s| - n..])
    ensures n < |s| ==> !IsWhitespace(s[|s| - 1 - n])
  {
    if |s| == 0 || !IsWhitespace(s[|s| - 1]) then 0
    else
      var t := s[..|s| - 1];
      var m := TrailingWhitespace(t);
      assert s[|s| - (1 + m)..] == t[|t| - m..] + [s[|s| - 1]];
      1 + m
  }

  /** `s` without its leading whitespace (also what the regular expression
      `\s*` consumes). */
  function TrimStart(s: string): (r: string)
    ensures |r| <= |s|
    ensures s == s[..|s| - |r|] + r && AllWhitespace(s[..|s| - |r|])
    ensures |r| > 0 ==> !IsWhitespace(r[0])
  {
    s[LeadingWhitespace(s)..]
  }

  /** `s` without its trailing whitespace. */
  function TrimEnd(s: string): (r: string)
    ensures |r| <= |s|
    ensures s == r + s[|r|..] && AllWhitespace(s[|r|..])
    ensures |r| > 0 ==> !IsWhitespace(r[|r| - 1])
  {
    s[..|s| - TrailingWhitespace(s)]
  }

  /** `String.prototype.trim`. */
  function Trim(s: string): (r: string)
    ensures |r| <= |s|
    ensures r == [] <==> AllWhitespace(s)
    ensures |r| > 0 ==> !IsWhitespace(r[0]) && !IsWhitespace(r[|r| - 1])
  {
    var a := TrimStart(s);
    var r := TrimEnd(a);
    assert |r| > 0 ==> r[0] == a[0];
    WhitespaceSplit(s[..|s| - |a|], a);
    WhitespaceSplit(r, a[|r|..]);
    r
  }

  /** A concatenation is all whitespace exactly when both parts are. */
  lemma WhitespaceSplit(x: string, y: string)
    ensures AllWhitespace(x + y) <==> AllWhitespace(x) && AllWhitespace(y)
  {
    if AllWhitespace(x + y) {
      forall i | 0 <= i < |y| ensures IsWhitespace(y[i]) {
        assert y[i] == (x + y)[|x| + i];
      }
      forall i | 0 <= i < |x| ensures IsWhitespace(x[i]) {
        assert x[i] == (x + y)[i];
      }
    }
  }

  /** Trimming only removes whitespace from the two ends: `s` is the trimmed
      text with a whitespace prefix and a whitespace suffix put back. */
  lemma TrimPeels(s: string) returns (pre: string, post: string)
    ensures s == pre + Trim(s) + post
    ensures AllWhitespace(pre) && AllWhitespace(post)
  {
    var a := TrimStart(s);
    pre := s[..|s| - |a|];
    post := a[|TrimEnd(a)|..];
    assert s == pre + a;
    assert a == TrimEnd(a) + post;
  }

  /** First position at or after `i` holding `c`, or -1. */
  function IndexFrom(s: string, c: char, i: nat): (r: int)
    requires i <= |s|
    ensures r == -1 || i <= r < |s|
    ensures r == -1 ==> forall k :: i <= k < |s| ==> s[k] != c
    ensures r >= 0 ==> s[r] == c && forall k :: i <= k < r ==> s[k] != c
    decreases |s| - i
  {
    if i == |s| then -1
    else if s[i] == c then i
    else IndexFrom(s, c, i + 1)
  }

  /** Last position before `n` holding `c`, or -1. */
  function LastIndexBefore(s: string, c: char, n: nat): (r: int)
    requires n <= |s|
    ensures -1 <= r < n
    ensures r == -1 ==> forall k :: 0 <= k < n ==> s[k] != c
    ensures r >= 0 ==> s[r] == c && forall k :: r < k < n ==> s[k] != c
  {
    if n == 0 then -1
    else if s[n - 1] == c then n - 1
    else LastIndexBefore(s, c, n - 1)
  }

  /** `s.indexOf(c)`: the first position of `c`, or -1. */
  function IndexOf(s: string, c: char): (r: int)
    ensures -1 <= r < |s|
    ensures r == -1 <==> c !in s
    ensures r >= 0 ==> s[r] == c && forall k :: 0 <= k < r ==> s[k] != c
  {
    IndexFrom(s, c, 0)
  }

  /** `s.lastIndexOf(c)`: the last position of `c`, or -1. */
  function LastIndexOf(s: string, c: char): (r: int)
    ensures -1 <= r < |s|
    ensures r == -1 <==> c !in s
    ensures r >= 0 ==> s[r] == c && forall k :: r < k < |s| ==> s[k] != c
  {
    LastIndexBefore(s, c, |s|)
  }

  /** Position clamped into `[0, n]`, as `substring` does with its arguments. */
  function Clamp(i: int, n: nat): (r: nat)
    ensures r <= n
    ensures 0 <= i <= n ==> r == i
  {
    if i < 0 then 0 else if i > n then n else i
  }

  /** `s.substring(a, b)`: both positions are clamped into the string and,
      when the first is past the second, the two are swapped. */
  function Substring(s: string, a: int, b: int): (r: string)
    ensures 0 <= a <= b <= |s| ==> r == s[a..b]
    ensures |r| <= |s|
  {
    var x := Clamp(a, |s|);
    var y := Clamp(b, |s|);
    if x <= y then s[x..y] else s[y..x]
  }

  /** `substring` does not care in which order its two positions come. */
  lemma SubstringSymmetric(s: string, a: int, b: int)
    ensures Substring(s, a, b) == Substring(s, b, a)
  {
  }

  predicate StartsWith(s: string, prefix: string) {
    |prefix| <= |s| && s[..|prefix|] == prefix
  }

  predicate EndsWith(s: string, suffix: string) {
    |suffix| <= |s| && s[|s| - |suffix|..] == suffix
  }
}

=== FILE: types.dfy ===
/** The shared data model of the application (types.ts). */
module Types {
  import opened Wrappers

  /** A cited web page shown under the analysis. */
  datatype Resource = Resource(title: string, url: string)

  /** The structured reply of the analysis service. `trustedResources` is an
      optional field: absent in what the service returns, filled in by the
      reply parser. */
  datatype WellnessResponse = WellnessResponse(
    visualInterpretation: string,
    symptomSummary: string,
    wellnessSuggestions: seq<string>,
    trackableSummary: string,
    disclaimer: string,
    trustedResources: Option<seq<Resource>>)

  /** Progress of one analysis submission. */
  datatype LoadingState = Idle | Analyzing | Success | Error

  /** The ten logical views of the site. */
  datatype Page =
    | Home | About | Features | Privacy | Terms | Contact
    | Testimonials | CookiePolicy | Disclaimer | HowItWorks

  /** JavaScript truthiness of an optional string: `null` and `""` are falsy. */
  predicate Truthy(s: Option<string>) {
    s.Some? && s.value != ""
  }
}

=== FILE: wrappers.dfy ===
/** Optional values and results used throughout the model: an optional value
    (JavaScript's `null`/`undefined` versus a present value) and a result that
    is either a value or a thrown error. */
module Wrappers {

  datatype Option<+T> = None | Some(value: T) {

    /** The value when present, `default` otherwise (JavaScript's `x || default`
        for values that are never falsy). */
    function GetOr(default: T): T {
      match this
      case Some(v) => v
      case None => default
    }
  }

  datatype Result<+T, +E> = Ok(value: T) | Err(error: E)
}
